=== FILE: README.md ===
# wocker-cron-plugin: a Dafny model of the cron sidecar's logic

The cron plugin of the wocker development environment runs one shared sidecar
container, `cron.ws` (image `wocker-cron`), that executes the crontabs of all
projects. This project models the deterministic logic of that plugin and proves
properties about it:

- **The crontab store** (`CrontabStore`, from `CronService`): a JSON document,
  `crontab.json`, maps each project's container name to its crontab text. It is
  modelled as `Option<map<string, string>>`, where `None` means the file does not
  exist. `getCrontab`, `setCrontab` and the editor round trip `edit` are modelled.
- **The sidecar lifecycle** (`Engine`, `CronService`, `CronPlugin`): the sidecar's
  part of the container engine is the container's Docker status (or absence) and
  whether the image exists. Each of `build`, `start` and `stop` is a transition
  that returns the new state and the ordered log of engine calls it made. The two
  `build` implementations make the same image decision, so it is defined once as
  `Engine.EnsureImage`.
- **The crontab commands** (`CronController`, `CronPlugin`): the controller picks
  exactly one action from its flags and applies it to the store. The plugin keeps
  the crontab in the project's `crontab` meta entry and pushes it into the sidecar
  with `ws-cron set "<container>" "<escaped crontab>"`.
- **The escaper** (`Escape`): `escapeSpecialChars` puts a backslash before each of
  `$ " ` ! \`. It is proved length-exact, invertible and injective. It is also
  proved inert inside a bash double-quoted word: nothing in the escaped text closes
  the quote or starts an expansion.

Outside input is passed in as plain values (`Cli.Environment`):
- the standard input, as a whole string, or `None` when the stream fails;
- the readable files, as a map from path to contents;
- the editor, as a function from the text it is given to the text it leaves, or
  `None` when it exits with an error.

The project service of `@wocker/core` is not part of this model. `Projects` gives
its `cdProject`/`get` and `Project`'s meta accessors the meaning the commands rely
on:
- `cdProject` fails on an unknown name;
- `get` fails when no project is current;
- `unsetMeta` removes the key.

When a command fails part-way, the effects it already made are kept. The result
records them together with the error (`CronController.Reply`, `CronPlugin.PluginRun`).

Behaviours of the code worth noting:
- The controller's `--remove` stores `""` and keeps the key, while the plugin's
  `remove` deletes the meta key.
- The plugin's `remove` sends no update to the sidecar.
- Only the crontab text is escaped. The project's container name goes into the
  command line unescaped.
- Docker's `State.Running`, which `CronService.start` reads, is also set for
  paused and restarting containers (`Engine.RunningFlag`). So "running afterwards"
  means that the engine reports the container as running.

## Model

| member | source | states |
|---|---|---|
| CrontabStore.Get | src/services/CronService.ts:114-124 | a missing document and a missing key both read as ""; otherwise the stored text is returned |
| CrontabStore.Set | src/services/CronService.ts:126-139 | on a missing document the result is exactly `{name: text}`; on an existing one the keys are the old keys plus `name`, `name` maps to `text` and every other key keeps its value |
| CrontabStore.GetAfterSet | src/services/CronService.ts:126-139 | a get after a set of the same name returns the text written; a get of any other name is unaffected |
| CrontabStore.SetCurrentIsInvisible | src/services/CronService.ts:105-111 | writing back the text get returned changes no later get, so skipping that write is safe |
| CrontabStore.GetAfterWrites | src/services/CronService.ts:126-139 | after any series of sets, get returns the last text written for that name, or the earlier value if the name was never written |
| CrontabStore.KeysAfterWrites | src/services/CronService.ts:127-138 | a series of sets onto a missing document creates it, and its keys are exactly the names written |
| CrontabStore.TwoProjectsOnFreshStore | src/services/CronService.ts:126-139 | setting "app" and then "db" on a fresh store leaves a document holding both entries |
| CrontabStore.Edit | src/services/CronService.ts:98-112 | fails, writing nothing, when the editor fails; otherwise get returns the editor's text afterwards; there is no write if and only if the text is unchanged, and at most one `setCrontab(name, text)`; other names are unaffected |
| Engine.EnsureImage | src/services/CronService.ts:81-95 | the image exists afterwards; it is built iff it was absent or a rebuild was asked; it is removed iff it existed and a rebuild was asked; a build is the last call; no container is created (CronPlugin.ts:272-286 is the same) |
| Engine.RecreateCallsShape | src/services/CronService.ts:39-59 | the log of removing and recreating the sidecar holds the removal iff asked, and then first; one creation iff the container is (re)created; a build iff it is created and the image is absent or a rebuild is asked; an image removal iff it is created, the image exists and a rebuild is asked; no exec or start (CronPlugin.ts:94-119 is the same) |
| CronService.Build | src/services/CronService.ts:76-96 | creates `{}` only when the document is missing and never alters an existing one; its engine calls are exactly those of EnsureImage, so it never touches the container |
| CronService.BuildKeepsCrontabs | src/services/CronService.ts:77-79 | creating the empty document changes no get |
| CronService.Provision | src/services/CronService.ts:39-59 | with a flag set or no container, the container is left created and the image present, with the log removal (when a flag is set), image calls of EnsureImage, then one creation with restart policy always; otherwise nothing happens; no get changes |
| CronService.Start | src/services/CronService.ts:38-70 | the container exists and is reported running afterwards; it is removed (first) iff restart or rebuild; exactly one container is created iff a flag is set or it was absent, else none; the image is built iff it is created and the image was absent or rebuild was asked, and removed iff it is created, it existed and rebuild was asked; the image exists afterwards iff it existed or the container was created; the engine is asked to start it iff it was (re)created or not reported running; with no flags and an existing running container nothing happens; no crontab changes |
| CronService.StartCalls | src/services/CronService.ts:38-70 | the whole log of start is the removal (when a flag is set), then, when the container is (re)created, the image calls and the creation, then the start when it was (re)created or not reported running; no other call and no other order |
| CronService.Stop | src/services/CronService.ts:72-74 | no container is left; the image and the document are unchanged |
| CronService.StartIsIdempotent | src/services/CronService.ts:38-70 | a second start without flags makes no engine call |
| CronService.StopThenStartRecreates | src/services/CronService.ts:38-74 | stop then start creates exactly one container without a removal and keeps every crontab |
| CronController.Start | src/controllers/CronController.ts:25-43 | the flags reach the service as (restart, build): `--build` always rebuilds the image, and `--restart` alone keeps an existing image; the container is removed iff a flag is set and runs afterwards |
| CronController.Stop | src/controllers/CronController.ts:45-50 | no container is left and the crontab document is unchanged |
| CronController.Choose | src/controllers/CronController.ts:86-100 | the chosen action is enabled by the flags and no action of higher priority (edit, list, filename, remove, non-TTY stdin) is enabled |
| CronController.Crontab | src/controllers/CronController.ts:52-117 | a failed project switch stops the command unchanged; every error leaves the document as it was and writes nothing; writes go only to the resolved project's container name; only list returns a value and it writes nothing; edit succeeds unless the editor fails and writes only a changed text; a readable file, piped stdin and remove each make exactly one `setCrontab` with the file's contents, the input or ""; remove keeps the key |
| CronController.RemoveThenList | src/controllers/CronController.ts:89-99 | `--remove` followed by `--list` prints "" while the key stays in the document |
| Projects.Resolve | src/controllers/CronController.ts:80-84 | with a name given, the named project is selected before it is resolved, so every later operation keys on it; an unknown name fails |
| Escape.EscapeSpecialChars | src/CronPlugin.ts:240-245 | the escaped length is the input length plus the number of special characters |
| Escape.EscapeAppend | src/CronPlugin.ts:242-244 | escaping works character by character, so it distributes over concatenation |
| Escape.PlainTextUnchanged | src/CronPlugin.ts:243 | a text is left unchanged iff it contains none of `$ " ` ! \` |
| Escape.UnescapeInvertsEscape | src/CronPlugin.ts:240-245 | removing the backslash before each special character recovers the input |
| Escape.EscapeInjective | src/CronPlugin.ts:240-245 | two texts escape to the same string iff they are equal |
| Escape.EscapedTextIsInert | src/CronPlugin.ts:240-252 | reading an escaped text as the inside of a bash double-quoted word finds no closing quote and no `$`, backquote or `!` expansion before whatever follows it |
| Escape.EscapedArgumentIsClosedByItsOwnQuote | src/CronPlugin.ts:252 | after the escaped crontab, the first quote bash acts on is the appended closing quote |
| Escape.InertTextIsSkipped | src/CronPlugin.ts:252 | text with no backslash and nothing bash acts on, such as the unescaped container name, is read straight through inside a double-quoted word |
| CronPlugin.UpdateCommandQuotesCrontab | src/CronPlugin.ts:247-253 | for a container name Docker accepts (no quote, `$`, backquote, `!` or backslash), the name's argument is closed by its own quote; the crontab argument opened next is closed only by the final quote, has no expansion, and unescapes to the crontab text |
| CronPlugin.UpdateCrontab | src/CronPlugin.ts:233-253 | no call when the sidecar container is absent; otherwise exactly one exec on `cron.ws` whose command embeds the escaped crontab (default "") |
| CronPlugin.WithCrontab | src/CronPlugin.ts:131-137 | a project is selected iff it is one of the projects and has crontab meta |
| CronPlugin.UpdateAll | src/CronPlugin.ts:131-137 | one exec per project with crontab meta, in the order of the search |
| CronPlugin.Provision | src/CronPlugin.ts:94-119 | the container is removed (first) iff restart or build; it is created (without a restart policy) iff a flag is set or it was absent; the image is built iff it is created and the image was absent or build was asked, and removed iff it is created, it existed and build was asked; the image exists afterwards iff it existed or the container was created; the log is the removal, the image calls, then the creation; with no flag and a container present nothing happens |
| CronPlugin.EnsureStarted | src/CronPlugin.ts:94-129 | the container exists afterwards; it is started, and becomes running, iff it was (re)created or its status was created or exited, and otherwise keeps its status; the image exists afterwards iff it existed or the container was created; no exec |
| CronPlugin.EnsureStartedCalls | src/CronPlugin.ts:94-129 | the lifecycle log is exactly the provisioning log followed by one start when the container was (re)created or its status was created or exited |
| CronPlugin.Start | src/CronPlugin.ts:86-138 | the lifecycle calls come first, followed by exactly one update for each project with crontab meta, in order |
| CronPlugin.StartUpdatesEveryProjectWithCrontab | src/CronPlugin.ts:131-137 | every project with crontab meta receives its update during start |
| CronPlugin.Stop | src/CronPlugin.ts:140-144 | no container is left and the image stays |
| CronPlugin.StoreCrontab | src/CronPlugin.ts:185-189 | only the `crontab` meta entry of the selected project changes and every other project keeps its value; the project reads back the text and the update sent carries the saved project |
| CronPlugin.Edit | src/CronPlugin.ts:203-223 | an editor failure or an unchanged text (default "") leaves the projects unchanged and sends nothing; a changed text replaces only the `crontab` meta entry of the current project, keeps every other project, and is sent with one update when the sidecar exists |
| CronPlugin.Remove | src/CronPlugin.ts:225-231 | the crontab meta key is deleted, not emptied; other meta entries and projects are kept; no update is sent |
| CronPlugin.Crontab | src/CronPlugin.ts:146-201 | a failed switch changes nothing; edit and remove return early; piped stdin alone is stored and sent with one update when the sidecar exists; with piped stdin and a file both are stored and each sent, and the project ends with only its `crontab` entry set to the file's text; a TTY stdin with no file does nothing; an unreadable file fails, after the piped text was stored and sent when there was one; other projects are unchanged |

## Left out

- The Docker API is not modelled: `createContainer` options (volumes, host
  networking), `inspect`, `exec`/`attachStream` streaming and log output. Every
  engine call is assumed to succeed, so an unreachable engine or a failed image
  build is not modelled.
- JSON reading and writing, file existence checks and file reads are not
  modelled; the document is the optional map itself. A corrupt `crontab.json`,
  on which `FS.readJSON` would throw, is not modelled.
- Temporary editor files are not modelled. `CronService.edit` writes
  `ws-crontab.txt` and never removes it, and `CronPlugin.edit` removes it only
  after the editor succeeds.
- src/utils/spawn.ts and src/utils/exec.ts are process plumbing. The editor is a
  function argument and its exit code is the `None` case.
- src/index.ts and plugin/src/index.ts are module wiring and a demo script.
- `CronPlugin.install` is not modelled: it registers commands and hooks the
  `project:start` event onto `updateCrontab`, which is modelled.
- Console logging is not modelled.
- Legacy container and image sweeps, timezone environment, atomic writes and file
  locking are not modelled. The code has none of them.
- `@wocker/core`'s ProjectService and Project are not part of this model. Their
  behaviour is assumed as described above, and `search({})` is a sequence
  argument of `CronPlugin.Start`.
- Escape.EscapedTextIsInert: it covers only which characters bash acts on inside
  a double-quoted word, not bash's full word expansion. In particular bash keeps
  the backslash in front of `!` inside double quotes, so `Unescape` is the
  escaper's inverse and not bash's dequoting.
- CronPlugin.UpdateCommandQuotesCrontab: it holds only for container names without `"`, `$`, backquote, `!` or backslash. The code does not escape the name. Docker's container-name rule excludes these characters, but that rule is not part of the model.
- Concurrent invocations and races on `crontab.json` are not modelled, because
  each command runs sequentially.

=== FILE: cli.dfy ===
/** What a command invocation receives from outside the model: its error kinds,
    JavaScript truthiness of optional string arguments, and the process environment
    (standard input, readable files and the interactive editor) as plain values. */
module Cli {
  import opened Wrappers

  /** The ways a crontab command can fail. */
  datatype Error =
    | UnknownProject(name: string)   // cdProject on a name the project service does not know
    | NoCurrentProject               // projectService.get() with no project selected
    | FileUnreadable(path: string)   // FS.readFile on a file that cannot be read
    | StdinFailed                    // the standard input stream emitted "error"
    | EditorFailed                   // the editor process exited with a non-zero code or did not start

  /** `if(x)` on an optional string argument: absent and empty are both false. */
  predicate Truthy(o: Option<string>)
  {
    o.Some? && o.value != ""
  }

  /** The outside world of one invocation.
      `stdin` is the whole standard input (None when the stream fails),
      `files` maps each readable path to its contents, and `editor` maps the
      text handed to the editor to the text it leaves behind (None when it fails). */
  datatype Environment = Environment(
    stdinIsTTY: bool,
    stdin: Option<string>,
    files: map<string, string>,
    editor: string -> Option<string>)
}

=== FILE: cron_controller.dfy ===
/** CronController: the cron:start and cron:stop commands, which delegate to
    CronService, and the crontab command, which picks one action from its flags
    and applies it to the crontab store under the current project's container name. */
module CronController {
  import opened Wrappers
  import opened Cli
  import opened Projects
  import opened Engine
  import CrontabStore
  import CronService

  /** cron:start [--build] [--restart]: the flags reach CronService.start in the
      order (restart, build), so --build asks for an image rebuild. */
  function Start(s: CronService.ServiceState, build: bool, restart: bool): (r: CronService.Transition)
    ensures build ==> BuildImage(ImageName) in r.calls
    ensures build ==> (ImageRm(ImageName) in r.calls <==> s.sidecar.imageExists)
    ensures restart && !build && s.sidecar.imageExists ==> BuildImage(ImageName) !in r.calls
    ensures RemoveContainer(ContainerName) in r.calls <==> build || restart
    ensures r.state.sidecar.container.Some? && RunningFlag(r.state.sidecar.container.value)
  {
    CronService.Start(s, restart, build)
  }

  /** cron:stop */
  function Stop(s: CronService.ServiceState): (r: CronService.Transition)
    ensures r.state.sidecar.container.None? && r.state.doc == s.doc
  {
    CronService.Stop(s)
  }

  /** The options of the crontab command. */
  datatype Flags = Flags(
    name: Option<string>,
    list: bool,
    edit: bool,
    remove: bool,
    filename: Option<string>)

  /** The actions the crontab command can take; it takes exactly one. */
  datatype Action = EditCrontab | ListCrontab | LoadFile(path: string) | ClearCrontab | ReadStdin | NoAction

  /** The priority of an action: lower goes first. */
  function Rank(a: Action): nat
  {
    match a
    case EditCrontab => 0
    case ListCrontab => 1
    case LoadFile(_) => 2
    case ClearCrontab => 3
    case ReadStdin => 4
    case NoAction => 5
  }

  /** Whether the flags ask for an action. */
  predicate Enabled(a: Action, f: Flags, stdinIsTTY: bool)
  {
    match a
    case EditCrontab => f.edit
    case ListCrontab => f.list
    case LoadFile(p) => Truthy(f.filename) && p == f.filename.value
    case ClearCrontab => f.remove
    case ReadStdin => !Truthy(f.filename) && !stdinIsTTY
    case NoAction => true
  }

  /** The if/else-if chain of crontab: the enabled action of highest priority. */
  function Choose(f: Flags, stdinIsTTY: bool): (a: Action)
    ensures Enabled(a, f, stdinIsTTY)
    ensures forall b :: Rank(b) < Rank(a) ==> !Enabled(b, f, stdinIsTTY)
  {
    if f.edit then EditCrontab
    else if f.list then ListCrontab
    else if Truthy(f.filename) then LoadFile(f.filename.value)
    else if f.remove then ClearCrontab
    else if !Truthy(f.filename) && !stdinIsTTY then ReadStdin
    else NoAction
  }

  /** What a crontab invocation leaves behind: the project service, the crontab
      document, the value returned to the caller, the setCrontab calls made, and the
      error that ended it, if any. */
  datatype Reply = Reply(
    ws: Workspace,
    doc: CrontabStore.Doc,
    output: Option<string>,
    writes: seq<CrontabStore.SetCall>,
    failure: Option<Error>)

  /** One setCrontab call for `name`, as a reply. */
  function Write(ws: Workspace, doc: CrontabStore.Doc, name: string, text: string): Reply
  {
    Reply(ws, CrontabStore.Set(doc, name, text), None, [CrontabStore.SetCall(name, text)], None)
  }

  /** crontab [filename] [--name] [--list] [--edit] [--remove] */
  function Crontab(ws: Workspace, doc: CrontabStore.Doc, f: Flags, env: Environment): (r: Reply)
    // a failed project switch or lookup stops the command before the store is touched
    ensures Resolve(ws, f.name).Failure? ==> r == Reply(ws, doc, None, [], Some(Resolve(ws, f.name).error))
    // the document is exactly what the setCrontab calls made of it, and there is at most one
    ensures r.doc == CrontabStore.ApplyAll(doc, r.writes) && |r.writes| <= 1
    // only listing returns a value
    ensures r.output.Some? ==> Choose(f, env.stdinIsTTY) == ListCrontab
    // every error leaves the document as it was and writes nothing
    ensures r.failure.Some? ==> r.doc == doc && r.writes == []
    ensures Resolve(ws, f.name).Success? ==>
      var sel := Resolve(ws, f.name).value;
      var name := sel.project.containerName;
      var current := CrontabStore.Get(doc, name);
      && r.ws == sel.ws
      // every write is for the resolved project, and no other entry changes
      && (forall w :: w in r.writes ==> w.name == name)
      && (forall other :: other != name ==> CrontabStore.Get(r.doc, other) == CrontabStore.Get(doc, other))
      && match Choose(f, env.stdinIsTTY)
         case EditCrontab =>
           && (env.editor(current).None? <==> r.failure == Some(EditorFailed))
           && (env.editor(current).Some? ==>
                 && r.failure.None?
                 && CrontabStore.Get(r.doc, name) == env.editor(current).value
                 && (r.writes == [] <==> env.editor(current).value == current))
         case ListCrontab =>
           r.output == Some(current) && r.doc == doc && r.writes == [] && r.failure.None?
         case LoadFile(p) =>
           && (p in env.files ==>
                 && r.failure.None?
                 && r.writes == [CrontabStore.SetCall(name, env.files[p])]
                 && CrontabStore.Get(r.doc, name) == env.files[p])
           && (p !in env.files ==> r.failure == Some(FileUnreadable(p)) && r.doc == doc)
         case ClearCrontab =>
           && r.failure.None?
           && r.writes == [CrontabStore.SetCall(name, "")]
           && CrontabStore.Get(r.doc, name) == ""
           && r.doc.Some? && name in r.doc.value
         case ReadStdin =>
           && (env.stdin.Some? ==>
                 && r.failure.None?
                 && r.writes == [CrontabStore.SetCall(name, env.stdin.value)]
                 && CrontabStore.Get(r.doc, name) == env.stdin.value)
           && (env.stdin.None? ==> r.failure == Some(StdinFailed) && r.doc == doc)
         case NoAction =>
           r == Reply(sel.ws, doc, None, [], None)
  {
    match Resolve(ws, f.name)
    case Failure(e) => Reply(ws, doc, None, [], Some(e))
    case Success(sel) =>
      var name := sel.project.containerName;
      match Choose(f, env.stdinIsTTY)
      case EditCrontab =>
        (match CrontabStore.Edit(doc, name, env.editor)
         case None => Reply(sel.ws, doc, None, [], Some(EditorFailed))
         case Some(edited) => Reply(sel.ws, edited.doc, None, edited.writes, None))
      case ListCrontab =>
        Reply(sel.ws, doc, Some(CrontabStore.Get(doc, name)), [], None)
      case LoadFile(p) =>
        if p in env.files then Write(sel.ws, doc, name, env.files[p])
        else Reply(sel.ws, doc, None, [], Some(FileUnreadable(p)))
      case ClearCrontab =>
        Write(sel.ws, doc, name, "")
      case ReadStdin =>
        (match env.stdin
         case None => Reply(sel.ws, doc, None, [], Some(StdinFailed))
         case Some(text) => Write(sel.ws, doc, name, text))
      case NoAction =>
        Reply(sel.ws, doc, None, [], None)
  }

  /** crontab --remove followed by crontab --list: the entry reads as "" and stays in the document. */
  lemma RemoveThenList(ws: Workspace, doc: CrontabStore.Doc, name: Option<string>, env: Environment)
    requires Resolve(ws, name).Success?
    ensures var removed := Crontab(ws, doc, Flags(name, false, false, true, None), env);
            var listed := Crontab(removed.ws, removed.doc, Flags(name, true, false, false, None), env);
            && listed.output == Some("")
            && removed.doc.Some?
            && Resolve(ws, name).value.project.containerName in removed.doc.value
  {
  }
}

=== FILE: cron_plugin.dfy ===
/** CronPlugin: the older command set that keeps each project's crontab in the
    project's own meta entry "crontab" and pushes it into the running sidecar with
    an exec of `ws-cron set "<container name>" "<escaped crontab>"`. */
module CronPlugin {
  import opened Wrappers
  import opened Cli
  import opened Projects
  import opened Engine
  import opened Escape

  /** The meta key holding a project's crontab. */
  const CrontabKey: string := "crontab"

  /** The command and the quote that opens the container-name argument. */
  const SetCommand: string := "ws-cron set \""

  /** The opening of the command line, up to the quote that opens the crontab argument. */
  function CommandPrefix(containerName: string): string
  {
    SetCommand + containerName + "\" \""
  }

  /** The bash command line run inside the sidecar for one project. */
  function UpdateCommand(containerName: string, crontab: string): string
  {
    CommandPrefix(containerName) + EscapeSpecialChars(crontab) + "\""
  }

  /** A container name that can sit inside a double-quoted bash word: Docker allows
      only letters, digits, `_`, `.` and `-`, so none of these characters occurs. */
  predicate QuotableName(containerName: string)
  {
    forall i :: 0 <= i < |containerName| ==> !IsActive(containerName[i]) && containerName[i] != '\\'
  }

  /** For a container name Docker accepts, the name's argument is closed by its own
      quote, and the crontab argument that the next quote opens is closed by the
      final quote and by nothing inside it, has no expansion, and unescapes to the
      crontab text. */
  lemma UpdateCommandQuotesCrontab(containerName: string, crontab: string)
    requires QuotableName(containerName)
    ensures var cmd := UpdateCommand(containerName, crontab);
            var nameStart := |SetCommand|;
            var start := |CommandPrefix(containerName)|;
            && cmd[..nameStart] == SetCommand
            && FirstActive(cmd[nameStart..]) == Some(|containerName|)
            && cmd[nameStart + |containerName|..start] == "\" \""
            && start < |cmd|
            && cmd[..start] == CommandPrefix(containerName)
            && FirstActive(cmd[start..]) == Some(|cmd| - start - 1)
            && Unescape(cmd[start..|cmd| - 1]) == crontab
  {
    var cmd := UpdateCommand(containerName, crontab);
    var nameStart := |SetCommand|;
    var start := |CommandPrefix(containerName)|;
    var e := EscapeSpecialChars(crontab);
    assert cmd[nameStart..] == containerName + ("\" \"" + e + "\"");
    InertTextIsSkipped(containerName, "\" \"" + e + "\"");
    assert cmd[start..] == e + "\"";
    assert cmd[start..|cmd| - 1] == e;
    EscapedArgumentIsClosedByItsOwnQuote(crontab);
    UnescapeInvertsEscape(crontab);
  }

  /** The exec that updates one project's schedule inside the sidecar. */
  function UpdateCall(p: Project): Call
  {
    Exec(ContainerName, UpdateCommand(p.containerName, GetMeta(p, CrontabKey, "")))
  }

  /** updateCrontab(project): nothing when the sidecar container is absent,
      otherwise one exec carrying the project's crontab (default ""). */
  function UpdateCrontab(s: Sidecar, p: Project): (calls: seq<Call>)
    ensures s.container.None? ==> calls == []
    ensures s.container.Some? ==> |calls| == 1 && calls[0].Exec? && calls[0].container == ContainerName
    ensures s.container.Some? ==>
              calls[0].cmd == CommandPrefix(p.containerName) + EscapeSpecialChars(GetMeta(p, CrontabKey, "")) + "\""
  {
    if s.container.None? then [] else [UpdateCall(p)]
  }

  /** The projects that have a crontab meta entry, in the order given. */
  function WithCrontab(projects: seq<Project>): (r: seq<Project>)
    ensures forall p :: p in r <==> p in projects && HasMeta(p, CrontabKey)
    ensures |r| <= |projects|
    decreases |projects|
  {
    if |projects| == 0 then []
    else
      var rest := WithCrontab(projects[1..]);
      assert projects == [projects[0]] + projects[1..];
      if HasMeta(projects[0], CrontabKey) then [projects[0]] + rest else rest
  }

  /** The loop at the end of start: updateCrontab for each project that has crontab
      meta, in order; with the container present each of them yields one exec. */
  function UpdateAll(s: Sidecar, projects: seq<Project>): (calls: seq<Call>)
    requires s.container.Some?
    ensures |calls| == |WithCrontab(projects)|
    ensures forall i :: 0 <= i < |calls| ==> calls[i] == UpdateCall(WithCrontab(projects)[i])
    decreases |projects|
  {
    if |projects| == 0 then []
    else
      var rest := UpdateAll(s, projects[1..]);
      if HasMeta(projects[0], CrontabKey) then UpdateCrontab(s, projects[0]) + rest else rest
  }

  /** Docker statuses in which start() starts the container. */
  predicate Startable(st: Status)
  {
    st == Created || st == Exited
  }

  /** start(), up to the creation: removes the container when a flag is set and
      creates it (building the image first) only when it is absent. */
  function Provision(s: Sidecar, restart: bool, build: bool): (r: Step)
    ensures var recreated := restart || build || s.container.None?;
            r.sidecar.container == (if recreated then Some(Created) else s.container)
    ensures RemoveContainer(ContainerName) in r.calls <==> restart || build
    ensures restart || build ==> r.calls[0] == RemoveContainer(ContainerName)
    ensures Creations(r.calls) == (if restart || build || s.container.None? then 1 else 0)
    ensures CreateContainer(ContainerName, ImageName, false) in r.calls
        <==> restart || build || s.container.None?
    ensures BuildImage(ImageName) in r.calls
        <==> (restart || build || s.container.None?) && (!s.imageExists || build)
    ensures ImageRm(ImageName) in r.calls <==> (restart || build || s.container.None?) && s.imageExists && build
    ensures forall i :: 0 <= i < |r.calls| ==> !r.calls[i].Exec? && !r.calls[i].StartContainer?
    ensures var recreated := restart || build || s.container.None?;
            r.sidecar.imageExists == (s.imageExists || recreated)
    ensures r.calls == RecreateCalls(s, restart || build, build, false)
    ensures !restart && !build && s.container.Some? ==> r == Step(s, [])
  {
    RecreateCallsShape(s, restart || build, build, false);
    if restart || build || s.container.None? then
      Step(Sidecar(Some(Created), true), RecreateCalls(s, restart || build, build, false))
    else
      Step(s, [])
  }

  /** start(), up to the inspect: after provisioning, the container is started only
      when its status is "created" or "exited"; a paused, restarting, removing or
      dead container is left as it is. */
  function EnsureStarted(s: Sidecar, restart: bool, build: bool): (r: Step)
    ensures r.sidecar.container.Some?
    ensures var recreated := restart || build || s.container.None?;
            r.sidecar.container.value
              == (if recreated || Startable(s.container.value) then Running else s.container.value)
    ensures StartContainer(ContainerName) in r.calls
        <==> restart || build || s.container.None? || Startable(s.container.value)
    ensures Creations(r.calls) == (if restart || build || s.container.None? then 1 else 0)
    ensures forall i :: 0 <= i < |r.calls| ==> !r.calls[i].Exec?
    ensures var recreated := restart || build || s.container.None?;
            r.sidecar.imageExists == (s.imageExists || recreated)
  {
    var present := Provision(s, restart, build);
    if restart || build || s.container.None? then
      var calls := present.calls + [StartContainer(ContainerName)];
      CreationsAppend(present.calls, [StartContainer(ContainerName)]);
      NoCreations([StartContainer(ContainerName)]);
      assert forall i :: 0 <= i < |calls| ==> !calls[i].Exec? by {
        forall i | 0 <= i < |calls|
          ensures !calls[i].Exec?
        {
          if i < |present.calls| {
            assert calls[i] == present.calls[i];
          }
        }
      }
      Step(present.sidecar.(container := Some(Running)), calls)
    else if Startable(s.container.value) then
      NoCreations([StartContainer(ContainerName)]);
      Step(s.(container := Some(Running)), [StartContainer(ContainerName)])
    else
      present
  }

  /** The whole engine log of start up to the updates: the provisioning calls,
      then the start when the container was (re)created or is created or exited. */
  lemma EnsureStartedCalls(s: Sidecar, restart: bool, build: bool)
    ensures var recreated := restart || build || s.container.None?;
            EnsureStarted(s, restart, build).calls
              == RecreateCalls(s, restart || build, build, false)
                 + (if recreated || Startable(s.container.value) then [StartContainer(ContainerName)] else [])
  {
  }

  /** start(): brings the sidecar up, then updates every project with crontab meta,
      so a fresh container picks up all existing schedules. */
  function Start(s: Sidecar, projects: seq<Project>, restart: bool, build: bool): (r: Step)
    ensures r.sidecar == EnsureStarted(s, restart, build).sidecar
    ensures var lifecycle := EnsureStarted(s, restart, build).calls;
            && |r.calls| == |lifecycle| + |WithCrontab(projects)|
            && r.calls[..|lifecycle|] == lifecycle
            && (forall i :: 0 <= i < |WithCrontab(projects)| ==>
                  r.calls[|lifecycle| + i] == UpdateCall(WithCrontab(projects)[i]))
  {
    var up := EnsureStarted(s, restart, build);
    var updates := UpdateAll(up.sidecar, projects);
    assert (up.calls + updates)[..|up.calls|] == up.calls;
    assert (up.calls + updates)[|up.calls|..] == updates;
    Step(up.sidecar, up.calls + updates)
  }

  /** Every project that has crontab meta gets its own update during start. */
  lemma StartUpdatesEveryProjectWithCrontab(s: Sidecar, projects: seq<Project>, restart: bool, build: bool, p: Project)
    requires p in projects
    ensures HasMeta(p, CrontabKey) ==> UpdateCall(p) in Start(s, projects, restart, build).calls
  {
  }

  /** stop(): no container is left; the image stays. */
  function Stop(s: Sidecar): (r: Step)
    ensures r.sidecar.container.None? && r.sidecar.imageExists == s.imageExists
    ensures r.calls == [RemoveContainer(ContainerName)]
  {
    Step(s.(container := None), [RemoveContainer(ContainerName)])
  }

  /** What a plugin command leaves behind: the project service, the engine calls
      made, and the error that ended it, if any. Effects before an error persist. */
  datatype PluginRun = PluginRun(ws: Workspace, calls: seq<Call>, failure: Option<Error>)

  /** setMeta("crontab", text), save() and updateCrontab on a selected project. */
  function StoreCrontab(sel: Selected, s: Sidecar, text: string): (r: (Selected, seq<Call>))
    ensures r.0.key == sel.key && r.0.ws.projects.Keys == sel.ws.projects.Keys + {sel.key}
    ensures r.0.ws.projects[sel.key] == r.0.project
    ensures forall k :: k in sel.ws.projects && k != sel.key ==> r.0.ws.projects[k] == sel.ws.projects[k]
    ensures r.0.project == SetMeta(sel.project, CrontabKey, text)
    ensures GetMeta(r.0.project, CrontabKey, "") == text
    ensures r.1 == UpdateCrontab(s, r.0.project)
  {
    var p := SetMeta(sel.project, CrontabKey, text);
    (Selected(Save(sel.ws, sel.key, p), sel.key, p), UpdateCrontab(s, p))
  }

  /** edit(): hands the project's crontab (default "") to the editor; when the
      editor returns the same text nothing is saved and no update is sent. */
  function Edit(ws: Workspace, s: Sidecar, editor: string -> Option<string>): (r: PluginRun)
    ensures Current(ws).Failure? ==> r == PluginRun(ws, [], Some(Current(ws).error))
    ensures Current(ws).Success? ==>
      var sel := Current(ws).value;
      var current := GetMeta(sel.project, CrontabKey, "");
      && (editor(current).None? ==> r == PluginRun(ws, [], Some(EditorFailed)))
      && (editor(current) == Some(current) ==> r == PluginRun(ws, [], None))
      && (editor(current).Some? && editor(current).value != current ==>
            && r.failure.None?
            && r.ws.projects.Keys == ws.projects.Keys
            && r.ws.projects[sel.key] == SetMeta(sel.project, CrontabKey, editor(current).value)
            && GetMeta(r.ws.projects[sel.key], CrontabKey, "") == editor(current).value
            && (forall k :: k in ws.projects && k != sel.key ==> r.ws.projects[k] == ws.projects[k])
            && r.calls == UpdateCrontab(s, r.ws.projects[sel.key]))
  {
    match Current(ws)
    case Failure(e) => PluginRun(ws, [], Some(e))
    case Success(sel) =>
      var current := GetMeta(sel.project, CrontabKey, "");
      match editor(current)
      case None => PluginRun(ws, [], Some(EditorFailed))
      case Some(res) =>
        if current == res then PluginRun(ws, [], None)
        else
          var (stored, calls) := StoreCrontab(sel, s, res);
          PluginRun(stored.ws, calls, None)
  }

  /** remove(): deletes the crontab meta entry (it is not set to ""), keeps every
      other entry and sends no update to the sidecar. */
  function Remove(ws: Workspace): (r: PluginRun)
    ensures Current(ws).Failure? ==> r == PluginRun(ws, [], Some(Current(ws).error))
    ensures Current(ws).Success? ==>
      var sel := Current(ws).value;
      && r.failure.None? && r.calls == []
      && r.ws.projects.Keys == ws.projects.Keys
      && !HasMeta(r.ws.projects[sel.key], CrontabKey)
      && r.ws.projects[sel.key].meta == sel.project.meta - {CrontabKey}
      && (forall k :: k in ws.projects && k != sel.key ==> r.ws.projects[k] == ws.projects[k])
  {
    match Current(ws)
    case Failure(e) => PluginRun(ws, [], Some(e))
    case Success(sel) =>
      PluginRun(Save(sel.ws, sel.key, UnsetMeta(sel.project, CrontabKey)), [], None)
  }

  /** The options of the crontab command of the plugin. */
  datatype Options = Options(name: Option<string>, edit: bool, remove: bool)

  /** crontab [filename] [--name] [--edit] [--remove]: edit and remove return early;
      otherwise standard input (when it is not a terminal) and then the file (when
      given) are each stored and pushed, so with both the file's text is kept. */
  function Crontab(ws: Workspace, s: Sidecar, opts: Options, filename: Option<string>, env: Environment): (r: PluginRun)
    ensures Resolve(ws, opts.name).Failure? ==> r == PluginRun(ws, [], Some(Resolve(ws, opts.name).error))
    ensures Resolve(ws, opts.name).Success? ==>
      var sel := Resolve(ws, opts.name).value;
      && (opts.edit ==> r == Edit(sel.ws, s, env.editor))
      && (!opts.edit && opts.remove ==> r == Remove(sel.ws))
      && (!opts.edit && !opts.remove ==>
            && r.ws.projects.Keys == ws.projects.Keys
            && (forall k :: k in ws.projects && k != sel.key ==> r.ws.projects[k] == ws.projects[k])
            && r.ws.projects[sel.key].containerName == sel.project.containerName
            && (env.stdinIsTTY && !Truthy(filename) ==> r == PluginRun(sel.ws, [], None))
            && (!env.stdinIsTTY && env.stdin.None? ==> r == PluginRun(sel.ws, [], Some(StdinFailed)))
            && (Truthy(filename) && filename.value in env.files && (env.stdinIsTTY || env.stdin.Some?) ==>
                  && r.failure.None?
                  && r.ws.projects[sel.key] == SetMeta(sel.project, CrontabKey, env.files[filename.value])
                  && GetMeta(r.ws.projects[sel.key], CrontabKey, "") == env.files[filename.value]
                  && |r.calls| == (if s.container.Some? then (if env.stdinIsTTY then 1 else 2) else 0)
                  && (s.container.Some? ==> r.calls[|r.calls| - 1] == UpdateCall(r.ws.projects[sel.key])))
            && (env.stdinIsTTY && Truthy(filename) && filename.value !in env.files ==>
                  r == PluginRun(sel.ws, [], Some(FileUnreadable(filename.value))))
            && (!env.stdinIsTTY && env.stdin.Some? ==>
                  var fromStdin := SetMeta(sel.project, CrontabKey, env.stdin.value);
                  && (!Truthy(filename) ==>
                        && r.failure.None?
                        && r.ws.projects[sel.key] == fromStdin
                        && r.calls == UpdateCrontab(s, fromStdin))
                  && (Truthy(filename) && filename.value !in env.files ==>
                        && r.failure == Some(FileUnreadable(filename.value))
                        && r.ws.projects[sel.key] == fromStdin
                        && r.calls == UpdateCrontab(s, fromStdin))
                  && (Truthy(filename) && filename.value in env.files ==>
                        r.calls == UpdateCrontab(s, fromStdin)
                                 + UpdateCrontab(s, SetMeta(fromStdin, CrontabKey, env.files[filename.value])))))
  {
    match Resolve(ws, opts.name)
    case Failure(e) => PluginRun(ws, [], Some(e))
    case Success(sel) =>
      if opts.edit then Edit(sel.ws, s, env.editor)
      else if opts.remove then Remove(sel.ws)
      else if !env.stdinIsTTY && env.stdin.None? then PluginRun(sel.ws, [], Some(StdinFailed))
      else
        var (afterStdin, stdinCalls) :=
          if !env.stdinIsTTY then StoreCrontab(sel, s, env.stdin.value) else (sel, []);
        if !Truthy(filename) then PluginRun(afterStdin.ws, stdinCalls, None)
        else if filename.value !in env.files then
          PluginRun(afterStdin.ws, stdinCalls, Some(FileUnreadable(filename.value)))
        else
          var (afterFile, fileCalls) := StoreCrontab(afterStdin, s, env.files[filename.value]);
          PluginRun(afterFile.ws, stdinCalls + fileCalls, None)
  }
}

=== FILE: cron_service.dfy ===
/** CronService's lifecycle of the sidecar: build, start and stop over the sidecar's
    engine state and the crontab document, which build creates when missing. */
module CronService {
  import opened Wrappers
  import opened Engine
  import CrontabStore

  /** What the service's lifecycle operations read and change. */
  datatype ServiceState = ServiceState(sidecar: Sidecar, doc: CrontabStore.Doc)

  /** The state after an operation and the engine calls it made. */
  datatype Transition = Transition(state: ServiceState, calls: seq<Call>)

  /** build(rebuild): creates an empty crontab document when none exists, never
      touches an existing one, and leaves the image present. */
  function Build(s: ServiceState, rebuild: bool): (r: Transition)
    ensures s.doc.None? ==> r.state.doc == Some(map[])
    ensures s.doc.Some? ==> r.state.doc == s.doc
    ensures r.state.sidecar == s.sidecar.(imageExists := true)
    ensures s.sidecar.imageExists && !rebuild ==> r.calls == []
    ensures BuildImage(ImageName) in r.calls <==> !s.sidecar.imageExists || rebuild
    ensures ImageRm(ImageName) in r.calls <==> s.sidecar.imageExists && rebuild
    ensures r.calls != [] ==> r.calls[|r.calls| - 1] == BuildImage(ImageName)
    ensures Creations(r.calls) == 0
    ensures r.calls == EnsureImage(s.sidecar, rebuild).calls
  {
    var doc := if s.doc.None? then Some(map[]) else s.doc;
    var image := EnsureImage(s.sidecar, rebuild);
    Transition(ServiceState(image.sidecar, doc), image.calls)
  }

  /** Build is invisible to the crontab store: every get answers as before. */
  lemma BuildKeepsCrontabs(s: ServiceState, rebuild: bool, name: string)
    ensures CrontabStore.Get(Build(s, rebuild).state.doc, name) == CrontabStore.Get(s.doc, name)
  {
  }

  /** start(restart, rebuild), up to the inspect: removes the container when either
      flag is set and, when it is then absent, builds the image and creates it. */
  function Provision(s: ServiceState, restart: bool, rebuild: bool): (r: Transition)
    ensures var recreated := restart || rebuild || s.sidecar.container.None?;
            && r.state.sidecar.container == (if recreated then Some(Created) else s.sidecar.container)
            && r.state.sidecar.imageExists == (s.sidecar.imageExists || recreated)
            && Creations(r.calls) == (if recreated then 1 else 0)
            && (ImageRm(ImageName) in r.calls <==> recreated && s.sidecar.imageExists && rebuild)
            && r.calls == RecreateCalls(s.sidecar, restart || rebuild, rebuild, true)
    ensures forall name :: CrontabStore.Get(r.state.doc, name) == CrontabStore.Get(s.doc, name)
    ensures !restart && !rebuild && s.sidecar.container.Some? ==> r == Transition(s, [])
  {
    RecreateCallsShape(s.sidecar, restart || rebuild, rebuild, true);
    if restart || rebuild || s.sidecar.container.None? then
      var built := Build(s, rebuild);
      Transition(ServiceState(Sidecar(Some(Created), true), built.state.doc),
                 RecreateCalls(s.sidecar, restart || rebuild, rebuild, true))
    else
      Transition(s, [])
  }

  /** start(restart, rebuild): removes the container when either flag is set,
      creates it (building first) only when it is absent, and starts it when the
      engine does not report it running. */
  function Start(s: ServiceState, restart: bool, rebuild: bool): (r: Transition)
    ensures r.state.sidecar.container.Some? && RunningFlag(r.state.sidecar.container.value)
    ensures RemoveContainer(ContainerName) in r.calls <==> restart || rebuild
    ensures restart || rebuild ==> r.calls[0] == RemoveContainer(ContainerName)
    ensures Creations(r.calls) == (if restart || rebuild || s.sidecar.container.None? then 1 else 0)
    ensures CreateContainer(ContainerName, ImageName, true) in r.calls
        <==> restart || rebuild || s.sidecar.container.None?
    ensures BuildImage(ImageName) in r.calls
        <==> (restart || rebuild || s.sidecar.container.None?) && (!s.sidecar.imageExists || rebuild)
    ensures ImageRm(ImageName) in r.calls
        <==> (restart || rebuild || s.sidecar.container.None?) && s.sidecar.imageExists && rebuild
    ensures Creations(r.calls) == 1 ==> r.state.sidecar.imageExists
    ensures StartContainer(ContainerName) in r.calls
        <==> restart || rebuild || s.sidecar.container.None? || !RunningFlag(s.sidecar.container.value)
    ensures !restart && !rebuild && s.sidecar.container.Some? ==>
              && r.state.doc == s.doc
              && r.state.sidecar.imageExists == s.sidecar.imageExists
              && (RunningFlag(s.sidecar.container.value) ==> r == Transition(s, []))
    ensures forall name :: CrontabStore.Get(r.state.doc, name) == CrontabStore.Get(s.doc, name)
    ensures var recreated := restart || rebuild || s.sidecar.container.None?;
            r.state.sidecar.imageExists == (s.sidecar.imageExists || recreated)
  {
    var present := Provision(s, restart, rebuild);
    var status := present.state.sidecar.container.value;
    if RunningFlag(status) then
      assert present.calls + [] == present.calls;
      present
    else
      CreationsAppend(present.calls, [StartContainer(ContainerName)]);
      NoCreations([StartContainer(ContainerName)]);
      Transition(present.state.(sidecar := present.state.sidecar.(container := Some(Running))),
                 present.calls + [StartContainer(ContainerName)])
  }

  /** The whole engine log of start: the removal when a flag is set, the image
      decision and the creation when the container is (re)created, and the start
      when it was (re)created or is not reported running; nothing else, in that order. */
  lemma StartCalls(s: ServiceState, restart: bool, rebuild: bool)
    ensures var recreated := restart || rebuild || s.sidecar.container.None?;
            Start(s, restart, rebuild).calls
              == RecreateCalls(s.sidecar, restart || rebuild, rebuild, true)
                 + (if recreated || !RunningFlag(s.sidecar.container.value)
                    then [StartContainer(ContainerName)] else [])
  {
  }

  /** stop(): no container is left; the image and the crontab document stay. */
  function Stop(s: ServiceState): (r: Transition)
    ensures r.state.sidecar.container.None?
    ensures r.state.sidecar.imageExists == s.sidecar.imageExists
    ensures r.state.doc == s.doc
    ensures r.calls == [RemoveContainer(ContainerName)]
  {
    Transition(s.(sidecar := s.sidecar.(container := None)), [RemoveContainer(ContainerName)])
  }

  /** Starting twice without flags: the second start makes no engine call at all. */
  lemma StartIsIdempotent(s: ServiceState, restart: bool, rebuild: bool)
    ensures var first := Start(s, restart, rebuild);
            Start(first.state, false, false) == Transition(first.state, [])
  {
  }

  /** Stop followed by start creates exactly one new container and keeps every crontab. */
  lemma StopThenStartRecreates(s: ServiceState, name: string)
    ensures var again := Start(Stop(s).state, false, false);
            && Creations(again.calls) == 1
            && RemoveContainer(ContainerName) !in again.calls
            && CrontabStore.Get(again.state.doc, name) == CrontabStore.Get(s.doc, name)
  {
  }
}

=== FILE: crontab_store.dfy ===
/** The crontab store of CronService: a JSON document, crontab.json, mapping each
    project's container name to its crontab text. The document may not exist yet. */
module CrontabStore {
  import opened Wrappers

  /** The contents of crontab.json; None while the file does not exist. */
  type Doc = Option<map<string, string>>

  /** One call of setCrontab(name, text). */
  datatype SetCall = SetCall(name: string, text: string)

  /** getCrontab(name): a missing document and a missing key both read as "". */
  function Get(doc: Doc, name: string): (text: string)
    ensures doc.None? ==> text == ""
    ensures doc.Some? && name !in doc.value ==> text == ""
    ensures doc.Some? && name in doc.value ==> text == doc.value[name]
  {
    match doc
    case None => ""
    case Some(m) => if name in m then m[name] else ""
  }

  /** setCrontab(name, text): creates the document with this one entry when it is
      missing, and otherwise merges the entry into the existing document. */
  function Set(doc: Doc, name: string, text: string): (r: Doc)
    ensures r.Some?
    ensures doc.None? ==> r == Some(map[name := text])
    ensures doc.Some? ==> r.value.Keys == doc.value.Keys + {name}
    ensures name in r.value && r.value[name] == text
    ensures doc.Some? ==> forall k :: k in doc.value && k != name ==> r.value[k] == doc.value[k]
  {
    match doc
    case None => Some(map[name := text])
    case Some(m) => Some(m[name := text])
  }

  /** A set is seen by the next get of the same name. */
  lemma GetAfterSet(doc: Doc, name: string, text: string, other: string)
    ensures Get(Set(doc, name, text), name) == text
    ensures other != name ==> Get(Set(doc, name, text), other) == Get(doc, other)
  {
  }

  /** Writing back the text that get returned is invisible to every later get;
      this is why edit may skip the write when the editor changed nothing. */
  lemma SetCurrentIsInvisible(doc: Doc, name: string, other: string)
    ensures Get(Set(doc, name, Get(doc, name)), other) == Get(doc, other)
  {
  }

  /** The document after a series of setCrontab calls, oldest first. */
  function ApplyAll(doc: Doc, writes: seq<SetCall>): Doc
    decreases |writes|
  {
    if |writes| == 0 then doc
    else
      var last := writes[|writes| - 1];
      Set(ApplyAll(doc, writes[..|writes| - 1]), last.name, last.text)
  }

  /** The text of the last call in `writes` that targets `name`, if any. */
  function LastWrite(writes: seq<SetCall>, name: string): Option<string>
    decreases |writes|
  {
    if |writes| == 0 then None
    else if writes[|writes| - 1].name == name then Some(writes[|writes| - 1].text)
    else LastWrite(writes[..|writes| - 1], name)
  }

  /** After any series of sets, get returns the last text written for that name,
      and what it returned before when the name was never written. */
  lemma {:induction false} GetAfterWrites(doc: Doc, writes: seq<SetCall>, name: string)
    ensures LastWrite(writes, name).Some? ==> Get(ApplyAll(doc, writes), name) == LastWrite(writes, name).value
    ensures LastWrite(writes, name).None? ==> Get(ApplyAll(doc, writes), name) == Get(doc, name)
    decreases |writes|
  {
    if |writes| > 0 {
      GetAfterWrites(doc, writes[..|writes| - 1], name);
    }
  }

  /** A series of sets onto a missing document leaves a document whose keys are
      exactly the names written. */
  lemma {:induction false} KeysAfterWrites(writes: seq<SetCall>, name: string)
    requires |writes| > 0
    ensures ApplyAll(None, writes).Some?
    ensures name in ApplyAll(None, writes).value <==> LastWrite(writes, name).Some?
    decreases |writes|
  {
    if |writes| > 1 {
      KeysAfterWrites(writes[..|writes| - 1], name);
    }
  }

  /** Two sets for different projects onto a fresh store keep both entries. */
  lemma TwoProjectsOnFreshStore()
    ensures Set(Set(None, "app", "* * * * * echo hi"), "db", "0 0 * * * backup")
         == Some(map["app" := "* * * * * echo hi", "db" := "0 0 * * * backup"])
  {
  }

  /** The result of edit: the document afterwards and the setCrontab calls made. */
  datatype Edited = Edited(doc: Doc, writes: seq<SetCall>)

  /** edit(name): hands the current crontab to the editor and writes the result back
      only when it differs. None when the editor fails; nothing is written then. */
  function Edit(doc: Doc, name: string, editor: string -> Option<string>): (r: Option<Edited>)
    ensures r.None? <==> editor(Get(doc, name)).None?
    ensures r.Some? ==> Get(r.value.doc, name) == editor(Get(doc, name)).value
    ensures r.Some? ==> (r.value.writes == [] <==> editor(Get(doc, name)).value == Get(doc, name))
    ensures r.Some? ==> |r.value.writes| <= 1
    ensures r.Some? ==> forall w :: w in r.value.writes ==> w == SetCall(name, editor(Get(doc, name)).value)
    ensures r.Some? ==> r.value.doc == ApplyAll(doc, r.value.writes)
    ensures r.Some? ==> forall k :: k != name ==> Get(r.value.doc, k) == Get(doc, k)
  {
    var crontab := Get(doc, name);
    match editor(crontab)
    case None => None
    case Some(res) =>
      if crontab == res then Some(Edited(doc, []))
      else
        var w := [SetCall(name, res)];
        assert w[..0] == [];
        Some(Edited(Set(doc, name, res), w))
  }
}

=== FILE: engine.dfy ===
/** The container engine as the cron sidecar sees it: whether the sidecar container
    exists and in which state, whether its image exists, and the log of engine calls
    an operation makes. The Docker API itself is not part of the model. */
module Engine {
  import opened Wrappers

  /** The sidecar container's fixed name and the tag of its image. */
  const ContainerName: string := "cron.ws"
  const ImageName: string := "wocker-cron"

  /** Docker's State.Status of a container. */
  datatype Status = Created | Restarting | Running | Removing | Paused | Exited | Dead

  /** Docker's State.Running flag, which is also set while a container is paused or restarting. */
  predicate RunningFlag(st: Status)
  {
    st == Running || st == Paused || st == Restarting
  }

  /** The sidecar's part of the engine: its container (None when absent) and its image. */
  datatype Sidecar = Sidecar(container: Option<Status>, imageExists: bool)

  /** A state-changing call made on the engine. */
  datatype Call =
    | RemoveContainer(name: string)
    | ImageRm(tag: string)
    | BuildImage(tag: string)
    | CreateContainer(name: string, image: string, restartAlways: bool)
    | StartContainer(name: string)
    | Exec(container: string, cmd: string)

  /** The sidecar after an operation and the engine calls it made, in order. */
  datatype Step = Step(sidecar: Sidecar, calls: seq<Call>)

  /** The number of containers created by a call log. */
  function Creations(calls: seq<Call>): nat
    decreases |calls|
  {
    if |calls| == 0 then 0 else (if calls[0].CreateContainer? then 1 else 0) + Creations(calls[1..])
  }

  lemma {:induction false} CreationsAppend(a: seq<Call>, b: seq<Call>)
    ensures Creations(a + b) == Creations(a) + Creations(b)
    decreases |a|
  {
    if |a| > 0 {
      assert (a + b)[1..] == a[1..] + b;
      CreationsAppend(a[1..], b);
    } else {
      assert a + b == b;
    }
  }

  lemma {:induction false} NoCreations(calls: seq<Call>)
    requires forall i :: 0 <= i < |calls| ==> !calls[i].CreateContainer?
    ensures Creations(calls) == 0
    decreases |calls|
  {
    if |calls| > 0 {
      NoCreations(calls[1..]);
    }
  }

  /** build(rebuild), the image half: an existing image is kept unless a rebuild is
      asked for; otherwise the image is removed when present and then built.
      CronService.build and CronPlugin.build make the same decision. */
  function EnsureImage(s: Sidecar, rebuild: bool): (r: Step)
    ensures r.sidecar == s.(imageExists := true)
    ensures BuildImage(ImageName) in r.calls <==> !s.imageExists || rebuild
    ensures ImageRm(ImageName) in r.calls <==> s.imageExists && rebuild
    ensures r.calls != [] ==> r.calls[|r.calls| - 1] == BuildImage(ImageName)
    ensures |r.calls| <= 2 && Creations(r.calls) == 0
  {
    if s.imageExists && !rebuild then Step(s, [])
    else
      var calls := (if s.imageExists then [ImageRm(ImageName)] else []) + [BuildImage(ImageName)];
      NoCreations(calls);
      Step(s.(imageExists := true), calls)
  }

  /** The engine calls that bring the sidecar container back: its removal when
      asked, then, when it is absent, the image decision of EnsureImage followed
      by the container's creation. */
  function RecreateCalls(s: Sidecar, remove: bool, rebuild: bool, restartAlways: bool): seq<Call>
  {
    (if remove then [RemoveContainer(ContainerName)] else [])
    + (if remove || s.container.None?
       then EnsureImage(s, rebuild).calls + [CreateContainer(ContainerName, ImageName, restartAlways)]
       else [])
  }

  /** What the recreate log contains: the removal exactly when asked and then
      first; one creation exactly when the container is (re)created; a build
      exactly when it is created and the image is absent or a rebuild is asked;
      an image removal exactly when it is created, the image exists and a rebuild
      is asked; never an exec or a start. */
  lemma RecreateCallsShape(s: Sidecar, remove: bool, rebuild: bool, restartAlways: bool)
    ensures var calls := RecreateCalls(s, remove, rebuild, restartAlways);
            var recreated := remove || s.container.None?;
            && (RemoveContainer(ContainerName) in calls <==> remove)
            && (remove ==> calls[0] == RemoveContainer(ContainerName))
            && Creations(calls) == (if recreated then 1 else 0)
            && (CreateContainer(ContainerName, ImageName, restartAlways) in calls <==> recreated)
            && (BuildImage(ImageName) in calls <==> recreated && (!s.imageExists || rebuild))
            && (ImageRm(ImageName) in calls <==> recreated && s.imageExists && rebuild)
            && (forall i :: 0 <= i < |calls| ==> !calls[i].Exec? && !calls[i].StartContainer?)
  {
    var removal: seq<Call> := if remove then [RemoveContainer(ContainerName)] else [];
    var image := EnsureImage(s, rebuild).calls;
    var create := [CreateContainer(ContainerName, ImageName, restartAlways)];
    NoCreations(removal);
    if remove || s.container.None? {
      CreationsAppend(image, create);
      CreationsAppend(removal, image + create);
      assert RecreateCalls(s, remove, rebuild, restartAlways) == removal + (image + create);
    } else {
      assert RecreateCalls(s, remove, rebuild, restartAlways) == removal;
    }
  }
}

=== FILE: escape.dfy ===
/** escapeSpecialChars of CronPlugin.updateCrontab: the crontab text is embedded in a
    double-quoted argument of an interactive bash command line, so each of
    $ " ` ! \ gets a backslash in front of it and every other character is kept. */
module Escape {
  import opened Wrappers

  /** The characters the escaper prefixes with a backslash. */
  predicate IsSpecial(c: char)
  {
    c == '$' || c == '"' || c == '`' || c == '!' || c == '\\'
  }

  /** The number of special characters in `s`. */
  function CountSpecial(s: string): nat
    decreases |s|
  {
    if |s| == 0 then 0 else (if IsSpecial(s[0]) then 1 else 0) + CountSpecial(s[1..])
  }

  /** The escaping of a single character. */
  function EscapeChar(c: char): string
  {
    if IsSpecial(c) then ['\\', c] else [c]
  }

  /** escapeSpecialChars(str): each character replaced by its escaping, in order.
      One character is added per special character of the input. */
  function EscapeSpecialChars(s: string): (r: string)
    ensures |r| == |s| + CountSpecial(s)
    decreases |s|
  {
    if |s| == 0 then "" else EscapeChar(s[0]) + EscapeSpecialChars(s[1..])
  }

  /** Escaping works character by character, so it distributes over concatenation. */
  lemma {:induction false} EscapeAppend(a: string, b: string)
    ensures EscapeSpecialChars(a + b) == EscapeSpecialChars(a) + EscapeSpecialChars(b)
    decreases |a|
  {
    if |a| == 0 {
      assert a + b == b;
    } else {
      assert (a + b)[0] == a[0];
      assert (a + b)[1..] == a[1..] + b;
      EscapeAppend(a[1..], b);
    }
  }

  /** A text without special characters is left exactly as it is, and only such a text is. */
  lemma {:induction false} PlainTextUnchanged(s: string)
    ensures EscapeSpecialChars(s) == s <==> CountSpecial(s) == 0
  {
    if CountSpecial(s) == 0 {
      PlainTextUnchangedByInduction(s);
    }
  }

  /** The induction behind PlainTextUnchanged: a text without special characters escapes to itself. */
  lemma {:induction false} PlainTextUnchangedByInduction(s: string)
    requires CountSpecial(s) == 0
    ensures EscapeSpecialChars(s) == s
    decreases |s|
  {
    if |s| > 0 {
      PlainTextUnchangedByInduction(s[1..]);
      assert s == [s[0]] + s[1..];
    }
  }

  /** Removes the backslash in front of each special character. */
  function Unescape(t: string): string
    decreases |t|
  {
    if |t| == 0 then ""
    else if |t| >= 2 && t[0] == '\\' && IsSpecial(t[1]) then [t[1]] + Unescape(t[2..])
    else [t[0]] + Unescape(t[1..])
  }

  /** Removing the inserted backslashes recovers the input. */
  lemma {:induction false} UnescapeInvertsEscape(s: string)
    ensures Unescape(EscapeSpecialChars(s)) == s
    decreases |s|
  {
    if |s| > 0 {
      var rest := EscapeSpecialChars(s[1..]);
      var e := EscapeSpecialChars(s);
      UnescapeInvertsEscape(s[1..]);
      if IsSpecial(s[0]) {
        assert e == ['\\', s[0]] + rest;
        assert e[2..] == rest;
      } else {
        assert e == [s[0]] + rest;
        assert e[1..] == rest;
      }
      assert s == [s[0]] + s[1..];
    }
  }

  /** Distinct crontab texts are never escaped to the same argument. */
  lemma EscapeInjective(a: string, b: string)
    ensures EscapeSpecialChars(a) == EscapeSpecialChars(b) <==> a == b
  {
    if EscapeSpecialChars(a) == EscapeSpecialChars(b) {
      UnescapeInvertsEscape(a);
      UnescapeInvertsEscape(b);
    }
  }

  /** Inside a bash double-quoted word: the characters that end the word or start
      an expansion (closing quote, parameter, command and history expansion). */
  predicate IsActive(c: char)
  {
    c == '"' || c == '$' || c == '`' || c == '!'
  }

  /** Inside a bash double-quoted word: the characters a preceding backslash quotes. */
  predicate BackslashQuotes(c: char)
  {
    c == '$' || c == '`' || c == '"' || c == '\\' || c == '\n' || c == '!'
  }

  /** A scanner position found in a suffix, moved to count from k characters earlier. */
  function Shift(o: Option<nat>, k: nat): Option<nat>
  {
    if o.Some? then Some(o.value + k) else None
  }

  /** Reading the inside of a bash double-quoted word: the position of the first
      character bash acts on (the quote that closes the word, or an expansion),
      skipping every backslash pair that quotes its second character. */
  function FirstActive(t: string): Option<nat>
    decreases |t|
  {
    if |t| == 0 then None
    else if IsActive(t[0]) then Some(0)
    else if t[0] == '\\' && |t| >= 2 && BackslashQuotes(t[1]) then Shift(FirstActive(t[2..]), 2)
    else Shift(FirstActive(t[1..]), 1)
  }

  /** Escaped text contains nothing bash acts on: reading past it reaches whatever
      follows, at the same position offset by the escaped length. */
  lemma {:induction false} EscapedTextIsInert(s: string, tail: string)
    ensures FirstActive(EscapeSpecialChars(s) + tail)
         == Shift(FirstActive(tail), |EscapeSpecialChars(s)|)
    decreases |s|
  {
    var e := EscapeSpecialChars(s);
    if |s| == 0 {
      assert e + tail == tail;
    } else {
      var rest := EscapeSpecialChars(s[1..]);
      EscapedTextIsInert(s[1..], tail);
      if IsSpecial(s[0]) {
        assert e + tail == ['\\', s[0]] + (rest + tail);
        assert (e + tail)[2..] == rest + tail;
      } else {
        assert e + tail == [s[0]] + (rest + tail);
        assert (e + tail)[1..] == rest + tail;
      }
    }
  }

  /** A text with no backslash and nothing bash acts on is read straight through. */
  lemma {:induction false} InertTextIsSkipped(t: string, tail: string)
    requires forall i :: 0 <= i < |t| ==> !IsActive(t[i]) && t[i] != '\\'
    ensures FirstActive(t + tail) == Shift(FirstActive(tail), |t|)
    decreases |t|
  {
    if |t| == 0 {
      assert t + tail == tail;
    } else {
      assert (t + tail)[0] == t[0];
      assert (t + tail)[1..] == t[1..] + tail;
      InertTextIsSkipped(t[1..], tail);
    }
  }

  /** Whatever the crontab text, the first quote bash sees after the escaped text
      is the closing quote appended to it, and no expansion happens before it. */
  lemma EscapedArgumentIsClosedByItsOwnQuote(s: string)
    ensures FirstActive(EscapeSpecialChars(s) + "\"") == Some(|EscapeSpecialChars(s)|)
  {
    EscapedTextIsInert(s, "\"");
  }
}

=== FILE: projects.dfy ===
/** The projects of the development environment as the cron commands see them:
    a project's container name and its string meta entries, and the project service
    that switches the current project and returns it. */
module Projects {
  import opened Wrappers
  import opened Cli

  /** A project, reduced to what the cron commands read and write. */
  datatype Project = Project(containerName: string, meta: map<string, string>)

  /** project.getMeta(key, default) */
  function GetMeta(p: Project, key: string, default: string): string
  {
    if key in p.meta then p.meta[key] else default
  }

  /** project.hasMeta(key) */
  predicate HasMeta(p: Project, key: string)
  {
    key in p.meta
  }

  /** project.setMeta(key, value) */
  function SetMeta(p: Project, key: string, value: string): Project
  {
    p.(meta := p.meta[key := value])
  }

  /** project.unsetMeta(key): the key is removed, not emptied. */
  function UnsetMeta(p: Project, key: string): Project
  {
    p.(meta := p.meta - {key})
  }

  /** The project service: every known project by name, and the current one. */
  datatype Workspace = Workspace(projects: map<string, Project>, current: Option<string>)

  /** A project picked by the project service, with the name it is saved under. */
  datatype Selected = Selected(ws: Workspace, key: string, project: Project)

  /** projectService.cdProject(name) */
  function CdProject(ws: Workspace, name: string): Result<Workspace, Error>
  {
    if name in ws.projects then Success(ws.(current := Some(name))) else Failure(UnknownProject(name))
  }

  /** projectService.get() */
  function Current(ws: Workspace): Result<Selected, Error>
  {
    if ws.current.Some? && ws.current.value in ws.projects
    then Success(Selected(ws, ws.current.value, ws.projects[ws.current.value]))
    else Failure(NoCurrentProject)
  }

  /** project.save() for the project stored under `key`. */
  function Save(ws: Workspace, key: string, p: Project): Workspace
  {
    ws.(projects := ws.projects[key := p])
  }

  /** `if(name) cdProject(name)` followed by `projectService.get()`: both crontab
      commands switch to the named project before resolving the current one, so
      everything they do afterwards keys on the named project. */
  function Resolve(ws: Workspace, name: Option<string>): (r: Result<Selected, Error>)
    ensures Truthy(name) && name.value !in ws.projects ==> r == Failure(UnknownProject(name.value))
    ensures Truthy(name) && name.value in ws.projects ==>
              && r.Success?
              && r.value.key == name.value
              && r.value.project == ws.projects[name.value]
              && r.value.ws.current == Some(name.value)
    ensures !Truthy(name) ==> r == Current(ws)
    ensures r.Success? ==>
              && r.value.ws.projects == ws.projects
              && r.value.key in ws.projects
              && r.value.project == ws.projects[r.value.key]
  {
    if Truthy(name) then
      match CdProject(ws, name.value)
      case Failure(e) => Failure(e)
      case Success(ws') => Current(ws')
    else
      Current(ws)
  }
}

=== FILE: wrappers.dfy ===
/** Option and Result, the failure-carrying datatypes used throughout the model. */
module Wrappers {

  /** A value that may be absent: `None` stands for a missing file, key or container. */
  datatype Option<+T> = None | Some(value: T)

  /** The outcome of an operation that can fail with an error of type `E`. */
  datatype Result<+T, +E> = Success(value: T) | Failure(error: E)
}
